=== FILE: README.md ===
# Document capture and upload screens, modelled in Dafny

The repository is a React Native client for an identity-card OCR service.
Its one piece of real logic is the capture pipeline of `screens/Home.tsx`:

- the camera preview shows a guide frame 90% of the window wide, with the card's 1318:832 aspect;
- a captured photo is cropped to that frame, scaled into the photo's own pixels and centred vertically;
- the cropped or picked image is posted as a multipart part named after the last segment of its URI;
- the server's field/value answer is kept only when the status is exactly 201.

`screens/HomeScreen.js` is a simpler sibling screen with different rules. It has no guide frame and never clears an old answer. It has no status check and always sends the fixed name `cin_image.jpg`.

The model is functional. Each screen is an immutable record of its React state slots. Each user action is a pure function from that record, plus the outcomes of the native and network calls, to the next record and the list of effects requested: alerts, a crop, a POST. The outcomes are permission granted or not, photo or null, crop URI or rejection, picker pick or cancel, and HTTP status and body or a thrown error.

| file | module | models |
|---|---|---|
| outcomes.dfy | `Outcomes` | optional slots, picker and HTTP outcomes, effects, JavaScript truthiness of an image slot |
| geometry.dfy | `Geometry` | guide frame and crop rectangle, in exact `real` arithmetic |
| filename.dfy | `Filename` | `uri.split('/').pop() \|\| 'photo.jpg'` |
| home.dfy | `Home` | the state machine of `screens/Home.tsx` |
| home_screen.dfy | `HomeScreen` | the state machine of `screens/HomeScreen.js` |
| compare.dfy | `Compare` | the same inputs given to both screens |

The window width is read twice in `Home.tsx`: once when the screen renders (line 16) and again when the photo is cropped (line 55). `Geometry.CropToFrame` takes both reads as parameters. `Geometry.Crop` is the case where they agree. `Geometry.WidthChangeOverflows` shows that the horizontal guarantee depends on that agreement.

Facts about the code that the model keeps:

- The code does not clamp the crop to the photo.
- The crop is centred vertically in the photo.
- A failed crop is an unhandled rejection. No alert is shown and the state does not change.
- Gallery images are never cropped.

## Model

| member | source | states |
|---|---|---|
| Geometry.FrameHeight | screens/Home.tsx:16-18 | the guide frame keeps the card aspect, height x 1318 = width x 832, and for a positive window it is non-empty and shorter than it is wide |
| Geometry.CropToFrame | screens/Home.tsx:54-59 | for any two width reads the crop keeps the 1318:832 aspect, is vertically centred in the photo (y + h/2 = photoH/2), and its width is the frame width times photoW over the crop-time width |
| Geometry.Crop | screens/Home.tsx:55-59 | when both width reads agree, the crop is 90% of the photo width with a 5% left margin, and its height is 0.9 x photoW x 832/1318, whatever the window width |
| Geometry.HorizontalInside | screens/Home.tsx:55-58 | the horizontal extent of the crop always lies inside the photo (0 <= x and x + w <= photoW) |
| Geometry.VerticalInsideIff | screens/Home.tsx:57-59 | the vertical extent lies inside the photo if and only if the crop is no taller than the photo, and a taller crop has a negative origin, because nothing is clamped |
| Geometry.InsideIff | screens/Home.tsx:55-59 | the whole crop lies inside the photo exactly when 0.9 x 832 x photoW <= 1318 x photoH |
| Geometry.IndependentOfScreen | screens/Home.tsx:55-59 | with agreeing width reads, two devices with different window widths request the same crop of the same photo |
| Geometry.WorkedExample | screens/Home.tsx:54-59 | window 1000 and photo 3000 x 4000 give x = 150, width 2700, height 2700 x 832/1318, and a crop inside the photo |
| Geometry.WideShortPhotoOverflows | screens/Home.tsx:57-59 | a 4000 x 2000 photo yields a crop taller than the photo with a negative y origin |
| Geometry.WidthChangeOverflows | screens/Home.tsx:55-58 | for every render width and every square photo, halving the window width before cropping makes the crop extend past the right edge of the photo |
| Filename.Split | screens/Home.tsx:103 | splitting yields at least one piece, no piece holds the separator, and a string without the separator is its own single piece |
| Filename.JoinSplit | screens/Home.tsx:103 | joining the pieces of a split with the separator gives back the original string |
| Filename.SplitJoin | screens/Home.tsx:103 | splitting a join of separator-free pieces gives back the pieces |
| Filename.LastSegmentUnique | screens/Home.tsx:103 | a string has exactly one last segment: a separator-free suffix that is the whole string or follows a separator |
| Filename.LastOfSplit | screens/Home.tsx:103 | the element `pop()` takes from a split is that last segment |
| Filename.UploadFilename | screens/Home.tsx:103 | the upload file name is never empty and never contains a slash |
| Filename.UploadFilenameIsLastSegment | screens/Home.tsx:103 | the file name is the text after the last slash when that is non-empty, and `photo.jpg` otherwise |
| Filename.NoSlashIsWholeUri | screens/Home.tsx:103 | a non-empty URI with no slash is its own file name |
| Filename.TrailingSlashIsDefault | screens/Home.tsx:103 | a URI ending in a slash is uploaded as `photo.jpg` |
| Filename.TextAfterLastSlash | screens/Home.tsx:103 | a URI of the form prefix/name, with a non-empty slash-free name, is uploaded under that name |
| Filename.CacheUriExample | screens/Home.tsx:103 | `file:///data/cache/Camera/abc.jpg` is uploaded as `abc.jpg` |
| Home.OpenCamera | screens/Home.tsx:31-37 | the camera opens if and only if permission is granted (or it was already open); a denial produces exactly the camera-permission alert and nothing else; image and result are untouched |
| Home.TakePhoto | screens/Home.tsx:39-52 | with no camera ref nothing happens; a null photo only raises an alert; a photo requests exactly the guide-frame crop; a successful crop replaces the image, clears the result and closes the camera; nothing else changes the state |
| Home.PickImage | screens/Home.tsx:77-94 | a denied permission alerts and changes nothing; a cancelled pick changes nothing; a pick replaces the image and clears the result; with permission granted no effect at all is requested, so a gallery image is never cropped; the camera flag is never touched |
| Home.Upload | screens/Home.tsx:96-127 | with no or an empty image only the no-image alert is shown and nothing changes; otherwise exactly one POST of the image under its derived name is made, followed by the success alert on status 201 and the failure alert on any other status or a throw; the result becomes the body exactly on status 201 and is otherwise unchanged |
| Home.UploadedNameIsPlain | screens/Home.tsx:102-110 | the posted part carries the image URI and a non-empty, slash-free file name |
| Home.NoStalePairing | screens/Home.tsx:43-118 | no single action changes the image while keeping a result, and only an accepted (201) upload of a non-empty image sets a new result, without changing the image |
| Home.ResultBelongsToImage | screens/Home.tsx:43-118 | after any sequence of actions, a shown OCR result is the body of an accepted upload of a non-empty image, and the image has not changed since that upload, provided each action completes before the next starts (see the concurrency line below) |
| HomeScreen.Choose | screens/HomeScreen.js:19-21 | a pick replaces the selected image, a cancel keeps it, and extracted data is never touched |
| HomeScreen.PickFromGallery | screens/HomeScreen.js:11-22 | a gallery pick replaces the selected image without clearing old data; a cancel changes nothing |
| HomeScreen.CaptureFromCamera | screens/HomeScreen.js:25-35 | a camera capture replaces the selected image without clearing old data; a cancel changes nothing |
| HomeScreen.ErrorMessage | screens/HomeScreen.js:60 | the alert text is never empty: it is the server's error text when that is non-empty, and the default message when it is missing or empty |
| HomeScreen.UploadPart | screens/HomeScreen.js:44-49 | the part always carries the name `cin_image.jpg` and type `image/jpeg` for the selected URI |
| HomeScreen.Upload | screens/HomeScreen.js:38-62 | with no or an empty image only the no-image alert is shown and nothing changes; otherwise exactly one POST is made; a resolved POST stores its body whatever its status and shows no alert; a rejection leaves the state unchanged and shows exactly one alert, with the server's error text or the default message |
| HomeScreen.UploadNameIgnoresUri | screens/HomeScreen.js:45-49 | two uploads of different images announce the same file name |
| HomeScreen.EmptyErrorFallsBack | screens/HomeScreen.js:60 | an empty `error` string falls back to the default message; a non-empty one is shown as is |
| HomeScreen.DataComesFromUpload | screens/HomeScreen.js:39-58 | after any sequence of actions, shown data is the body of some upload that was posted (a non-empty image was selected at that step) and resolved, with any status |
| HomeScreen.StaleDataAfterNewPick | screens/HomeScreen.js:19-58 | picking a.jpg, uploading it with status 200 and then picking b.jpg shows b.jpg next to the data of a.jpg |
| Compare.StatusCheckDiffers | screens/Home.tsx:117-122 | for a resolved status other than 201, the capture screen keeps its previous result while the simpler screen stores the body |
| Compare.NewPickDiffers | screens/Home.tsx:90-93 | a new gallery pick clears the capture screen's result but keeps the simpler screen's data |
| Compare.FileNameDiffers | screens/Home.tsx:103 | the same URI is uploaded as `a.png` by the capture screen and as `cin_image.jpg` by the simpler screen |

## Left out

- Native and network calls are outcomes given as inputs. This covers `Dimensions.get`, `takePictureAsync`, `manipulateAsync`, the image pickers, the permission hooks and `axios.post`; their internals are not modelled. In particular, axios's default rejection of non-2xx statuses is not modelled: the status and the throw are independent inputs.
- Home.TakePhoto: the crop-time window width is a positive real. A zero width, which gives JavaScript `Infinity` or `NaN`, is not modelled.
- Geometry.Crop: the window width is a positive real (`Geometry.Width`), as `Dimensions.get` reports one.
- Rejections of native calls other than the crop are not separate outcomes. This covers `takePictureAsync` (screens/Home.tsx:41), the gallery permission request and picker (screens/Home.tsx:78, 84), and both pickers of screens/HomeScreen.js (lines 12 and 26). None is caught, so a rejection shows no alert and changes nothing; that is the observable result of the existing no-camera-ref and cancelled-pick branches.
- The close button of the camera view (screens/Home.tsx:139) has no action. In the model the camera closes only after a successful photo.
- JavaScript floating point is not modelled. The crop is exact `real` arithmetic, with no IEEE-754 rounding and no pixel rounding by the image library.
- The camera-permission bootstrap effect (screens/Home.tsx:20-29) is not modelled. Permission is an input to each action.
- Rendering and styles are not modelled: screens/Home.tsx:129-274 and the JSX and style blocks of screens/HomeScreen.js.
- The login, registration, OTP and password-reset screens are not modelled, and neither are `app/loginscreen.tsx`, `App.js` and `app/_layout.tsx`. They are single requests or navigation wiring.
- The picker's `assets[0]` is taken to exist on a non-cancelled pick. An empty asset list would throw.
- Response bodies are flat string-to-string maps. Other JSON shapes, and a non-string `error` field, are not modelled.
- `console.error` logging is not modelled.
- Concurrency is not modelled: each action is atomic. Home.ResultBelongsToImage relies on this. In the app the gallery button stays live while an upload awaits its POST, so a pick followed by a late 201 shows the new image next to the old image's result; a second upload pressed before the first resolves is not modelled either.
- Clamping the crop to the photo is not modelled, because the code does not clamp. The condition under which the crop fits is proved instead (`Geometry.InsideIff`).

=== FILE: compare.dfy ===
/** Where the two upload screens part ways, stated over the same inputs. */
module Compare {
  import opened Outcomes
  import Home
  import HomeScreen
  import Filename

  /** A resolved POST with a status other than 201 leaves the capture
      screen's result as it was, while the simpler screen stores its body. */
  lemma StatusCheckDiffers(image: string, previous: Option<Fields>, status: int, data: Fields)
    requires image != "" && status != 201
    ensures Home.Upload(Home.Screen(Some(image), previous, false), Returned(status, data)).screen.ocrResult == previous
    ensures HomeScreen.Upload(HomeScreen.Screen(Some(image), previous), Returned(status, data)).screen.extractedData
            == Some(data)
  {
  }

  /** A new gallery pick clears the capture screen's result but keeps the
      simpler screen's data. */
  lemma NewPickDiffers(uri: string, data: Fields)
    ensures Home.PickImage(Home.Screen(None, Some(data), false), true, Picked(uri)).screen.ocrResult == None
    ensures HomeScreen.PickFromGallery(HomeScreen.Screen(None, Some(data)), Picked(uri)).screen.extractedData
            == Some(data)
  {
  }

  /** The capture screen names the upload after the URI; the simpler screen
      sends a fixed name. */
  lemma FileNameDiffers()
    ensures Home.Upload(Home.Screen(Some("file:///cache/a.png"), None, false), Threw(None)).effects[0].part.name
            == "a.png"
    ensures HomeScreen.Upload(HomeScreen.Screen(Some("file:///cache/a.png"), None), Threw(None)).effects[0].part.name
            == "cin_image.jpg"
  {
    Filename.TextAfterLastSlash("file:///cache", "a.png");
    assert "file:///cache" + [Filename.Slash] + "a.png" == "file:///cache/a.png";
  }
}

=== FILE: filename.dfy ===
/** The upload file name of the capture screen: the last `/`-separated
    segment of the image URI, or `photo.jpg` when that segment is empty.
    `Split` follows JavaScript's `String.prototype.split` with a
    one-character separator, which always yields at least one piece. */
module Filename {

  const Slash: char := '/'
  const DefaultName: string := "photo.jpg"

  /** The pieces of `s` between occurrences of `sep`, in order. */
  function Split(s: string, sep: char): (parts: seq<string>)
    ensures |parts| >= 1
    ensures forall i :: 0 <= i < |parts| ==> sep !in parts[i]
    ensures sep !in s ==> parts == [s]
    ensures sep in s ==> |parts| >= 2
    decreases |s|
  {
    if |s| == 0 then [""]
    else
      var rest := Split(s[1..], sep);
      if s[0] == sep then [""] + rest
      else
        assert s == [s[0]] + s[1..];
        [[s[0]] + rest[0]] + rest[1..]
  }

  /** The pieces glued back together with `sep` between them. */
  function Join(parts: seq<string>, sep: char): string
    requires |parts| >= 1
  {
    if |parts| == 1 then parts[0]
    else parts[0] + [sep] + Join(parts[1..], sep)
  }

  /** Splitting loses nothing: joining the pieces gives back the input. */
  lemma {:induction false} JoinSplit(s: string, sep: char)
    ensures Join(Split(s, sep), sep) == s
    decreases |s|
  {
    if |s| > 0 {
      var rest := Split(s[1..], sep);
      JoinSplit(s[1..], sep);
      if s[0] == sep {
        assert Split(s, sep)[1..] == rest;
        assert s == [s[0]] + s[1..];
      } else if |rest| == 1 {
        assert s == [s[0]] + s[1..];
      } else {
        var parts := Split(s, sep);
        assert parts[1..] == rest[1..];
        assert Join(rest, sep) == rest[0] + [sep] + Join(rest[1..], sep);
        assert s == [s[0]] + s[1..];
      }
    }
  }

  /** A separator-free prefix followed by the separator becomes one piece. */
  lemma {:induction false} SplitAfterPiece(a: string, b: string, sep: char)
    requires sep !in a
    ensures Split(a + [sep] + b, sep) == [a] + Split(b, sep)
    decreases |a|
  {
    var s := a + [sep] + b;
    if |a| == 0 {
      assert s[1..] == b;
    } else {
      assert s[1..] == a[1..] + [sep] + b;
      SplitAfterPiece(a[1..], b, sep);
      assert [a[0]] + a[1..] == a;
    }
  }

  /** Joining separator-free pieces and splitting again gives the pieces back. */
  lemma {:induction false} SplitJoin(parts: seq<string>, sep: char)
    requires |parts| >= 1
    requires forall i :: 0 <= i < |parts| ==> sep !in parts[i]
    ensures Split(Join(parts, sep), sep) == parts
    decreases |parts|
  {
    if |parts| > 1 {
      SplitAfterPiece(parts[0], Join(parts[1..], sep), sep);
      SplitJoin(parts[1..], sep);
      assert [parts[0]] + parts[1..] == parts;
    }
  }

  /** `seg` is the text after the last `sep` of `s`, or all of `s` when it
      has no `sep`: a separator-free suffix that is either the whole string
      or preceded by a separator. */
  predicate IsLastSegment(s: string, seg: string, sep: char) {
    && |seg| <= |s|
    && s[|s| - |seg|..] == seg
    && sep !in seg
    && (|seg| == |s| || s[|s| - |seg| - 1] == sep)
  }

  /** There is only one such segment. */
  lemma LastSegmentUnique(s: string, a: string, b: string, sep: char)
    requires IsLastSegment(s, a, sep) && IsLastSegment(s, b, sep)
    ensures a == b
  {
  }

  /** JavaScript's `pop()` on the non-empty array `split` returns. */
  function Last(parts: seq<string>): string
    requires |parts| >= 1
  {
    parts[|parts| - 1]
  }

  /** A last segment of `s[1..]` is one of `s` too, unless it is all of
      `s[1..]` and `s[0]` is not a separator. */
  lemma ExtendFront(s: string, seg: string, sep: char)
    requires |s| > 0 && IsLastSegment(s[1..], seg, sep)
    requires |seg| < |s| - 1 || s[0] == sep
    ensures IsLastSegment(s, seg, sep)
  {
    assert s[1..][|s| - 1 - |seg|..] == s[|s| - |seg|..];
    if |seg| < |s| - 1 {
      assert s[1..][|s| - 1 - |seg| - 1] == s[|s| - |seg| - 1];
    }
  }

  /** The last piece of a split is the last segment. */
  lemma {:induction false} LastOfSplit(s: string, sep: char)
    ensures IsLastSegment(s, Last(Split(s, sep)), sep)
    decreases |s|
  {
    if |s| > 0 {
      var rest := Split(s[1..], sep);
      LastOfSplit(s[1..], sep);
      var seg := Last(rest);
      if s[0] == sep {
        assert Last(Split(s, sep)) == seg;
        ExtendFront(s, seg, sep);
      } else if |rest| == 1 {
        assert Last(Split(s, sep)) == [s[0]] + s[1..] == s;
      } else {
        assert Last(Split(s, sep)) == seg;
        assert sep in s[1..];
        ExtendFront(s, seg, sep);
      }
    }
  }

  /** `uri.split('/').pop() || 'photo.jpg'` (screens/Home.tsx:103). */
  function UploadFilename(uri: string): (name: string)
    ensures name != ""
    ensures Slash !in name
  {
    var last := Last(Split(uri, Slash));
    if last != "" then last else DefaultName
  }

  /** The file name is the last segment when that is non-empty, and the
      default name otherwise. */
  lemma UploadFilenameIsLastSegment(uri: string, seg: string)
    requires IsLastSegment(uri, seg, Slash)
    ensures UploadFilename(uri) == (if seg != "" then seg else DefaultName)
  {
    LastOfSplit(uri, Slash);
    LastSegmentUnique(uri, seg, Last(Split(uri, Slash)), Slash);
  }

  /** A non-empty URI without a slash is its own file name. */
  lemma NoSlashIsWholeUri(uri: string)
    requires uri != "" && Slash !in uri
    ensures UploadFilename(uri) == uri
  {
    UploadFilenameIsLastSegment(uri, uri);
  }

  /** A URI ending in a slash uploads as `photo.jpg`. */
  lemma TrailingSlashIsDefault(prefix: string)
    ensures UploadFilename(prefix + [Slash]) == DefaultName
  {
    UploadFilenameIsLastSegment(prefix + [Slash], "");
  }

  /** Otherwise the name is the text after the last slash. */
  lemma TextAfterLastSlash(prefix: string, name: string)
    requires name != "" && Slash !in name
    ensures UploadFilename(prefix + [Slash] + name) == name
  {
    var uri := prefix + [Slash] + name;
    assert uri[|uri| - |name|..] == name;
    assert uri[|uri| - |name| - 1] == Slash;
    UploadFilenameIsLastSegment(uri, name);
  }

  /** A typical device URI. */
  lemma CacheUriExample()
    ensures UploadFilename("file:///data/cache/Camera/abc.jpg") == "abc.jpg"
  {
    TextAfterLastSlash("file:///data/cache/Camera", "abc.jpg");
    assert "file:///data/cache/Camera" + [Slash] + "abc.jpg" == "file:///data/cache/Camera/abc.jpg";
  }
}

=== FILE: geometry.dfy ===
/** The on-screen guide frame of the capture screen and the crop rectangle
    derived from it in the pixel space of the captured photo.

    All arithmetic is exact `real` arithmetic. The frame is computed from the
    window width read when the screen renders; the crop scale divides the
    photo width by the window width read again when the photo is cropped.
    The two reads are separate parameters here, `renderWidth` and
    `windowWidth`, so that the properties can say which of them rely on the
    two being equal. */
module Geometry {

  /** Document aspect ratio of an identity card, width : height. */
  const AspectW: real := 1318.0
  const AspectH: real := 832.0

  /** Fraction of the window width the guide frame covers. */
  const FrameFraction: real := 0.9

  /** A window width as `Dimensions.get('window')` reports it. */
  type Width = w: real | w > 0.0 witness 1.0

  /** A crop rectangle: origin and extent in image pixels. */
  datatype CropRect = CropRect(x: real, y: real, width: real, height: real)

  function FrameWidth(screenWidth: real): real {
    screenWidth * FrameFraction
  }

  /** The frame height keeps the 1318:832 aspect of the frame width. */
  function FrameHeight(screenWidth: real): (h: real)
    ensures h * AspectW == FrameWidth(screenWidth) * AspectH
    ensures screenWidth > 0.0 ==> 0.0 < h < FrameWidth(screenWidth)
  {
    (FrameWidth(screenWidth) / AspectW) * AspectH
  }

  /** The crop the capture screen asks the image library for, given the
      render-time window width, the crop-time window width and the photo's
      pixel dimensions. Nothing is clamped to the photo. */
  function CropToFrame(renderWidth: real, windowWidth: real, photoW: real, photoH: real): (r: CropRect)
    requires windowWidth != 0.0
    ensures r.width * AspectH == r.height * AspectW
    ensures r.y + r.height / 2.0 == photoH / 2.0
    ensures r.width == FrameWidth(renderWidth) * (photoW / windowWidth)
  {
    var scale := photoW / windowWidth;
    var frameW := FrameWidth(renderWidth);
    var frameH := FrameHeight(renderWidth);
    CropRect((renderWidth - frameW) / 2.0 * scale,
             (photoH - frameH * scale) / 2.0,
             frameW * scale,
             frameH * scale)
  }

  /** The rectangle lies inside a `photoW` x `photoH` image. */
  predicate Inside(r: CropRect, photoW: real, photoH: real) {
    && 0.0 <= r.x && r.x + r.width <= photoW
    && 0.0 <= r.y && r.y + r.height <= photoH
  }

  /** The crop of the screen as it behaves when both width reads agree. */
  function Crop(screenWidth: Width, photoW: real, photoH: real): (r: CropRect)
    ensures r.width == FrameFraction * photoW
    ensures r.x == (1.0 - FrameFraction) / 2.0 * photoW
    ensures r.height * AspectW == FrameFraction * photoW * AspectH
  {
    ScaleCancels(screenWidth, photoW);
    CropToFrame(screenWidth, screenWidth, photoW, photoH)
  }

  lemma ScaleCancels(w: real, p: real)
    requires w > 0.0
    ensures w * (p / w) == p
  {
  }

  /** With equal width reads the horizontal extent of the crop always lies
      inside the photo: 5% margin on each side. */
  lemma HorizontalInside(screenWidth: Width, photoW: real, photoH: real)
    requires photoW >= 0.0
    ensures var r := Crop(screenWidth, photoW, photoH);
            0.0 <= r.x && r.x + r.width <= photoW
  {
  }

  /** The vertical extent lies inside the photo exactly when the crop is no
      taller than the photo; there is no clamping, so a taller crop starts
      above the photo's top edge. */
  lemma VerticalInsideIff(renderWidth: real, windowWidth: real, photoW: real, photoH: real)
    requires windowWidth != 0.0
    ensures var r := CropToFrame(renderWidth, windowWidth, photoW, photoH);
            (0.0 <= r.y && r.y + r.height <= photoH) <==> r.height <= photoH
    ensures var r := CropToFrame(renderWidth, windowWidth, photoW, photoH);
            r.height > photoH <==> r.y < 0.0
  {
  }

  /** With equal width reads, the crop lies inside the photo exactly when the
      photo is at least as tall as 0.9 * 832/1318 of its width. */
  lemma InsideIff(screenWidth: Width, photoW: real, photoH: real)
    requires photoW >= 0.0
    ensures Inside(Crop(screenWidth, photoW, photoH), photoW, photoH)
            <==> FrameFraction * AspectH * photoW <= AspectW * photoH
  {
    var r := Crop(screenWidth, photoW, photoH);
    HorizontalInside(screenWidth, photoW, photoH);
    VerticalInsideIff(screenWidth, screenWidth, photoW, photoH);
    assert r.height * AspectW == FrameFraction * photoW * AspectH;
    assert r.height <= photoH <==> r.height * AspectW <= photoH * AspectW;
  }

  /** With equal width reads the crop depends only on the photo, not on the
      device's window width. */
  lemma IndependentOfScreen(a: Width, b: Width, photoW: real, photoH: real)
    ensures Crop(a, photoW, photoH) == Crop(b, photoW, photoH)
  {
    var ra, rb := Crop(a, photoW, photoH), Crop(b, photoW, photoH);
    assert ra.height * AspectW == rb.height * AspectW;
    assert ra.height == rb.height;
    VerticalInsideIff(a, a, photoW, photoH);
    assert ra.y == photoH / 2.0 - ra.height / 2.0;
    assert rb.y == photoH / 2.0 - rb.height / 2.0;
  }

  /** Window 1000, photo 3000 x 4000: the frame is 900 wide, the scale 3,
      the crop starts at x = 150 and is 2700 wide. */
  lemma WorkedExample()
    ensures var r := Crop(1000.0, 3000.0, 4000.0);
            && r.x == 150.0 && r.width == 2700.0
            && r.height == 2700.0 * 832.0 / 1318.0
            && r.y == (4000.0 - 2700.0 * 832.0 / 1318.0) / 2.0
            && Inside(r, 3000.0, 4000.0)
  {
    InsideIff(1000.0, 3000.0, 4000.0);
  }

  /** A wide, short photo (4000 x 2000) gives a crop taller than the photo
      and therefore a negative origin. */
  lemma WideShortPhotoOverflows()
    ensures var r := Crop(400.0, 4000.0, 2000.0);
            r.y < 0.0 && !Inside(r, 4000.0, 2000.0)
  {
    InsideIff(400.0, 4000.0, 2000.0);
    VerticalInsideIff(400.0, 400.0, 4000.0, 2000.0);
  }

  /** If the window width halves between rendering and cropping (a rotation,
      say) the horizontal extent of the crop leaves every square photo. */
  lemma WidthChangeOverflows(w: Width, side: real)
    requires side > 0.0
    ensures var r := CropToFrame(w, w / 2.0, side, side);
            r.x + r.width > side
  {
  }
}

=== FILE: home.dfy ===
/** The document-capture screen of screens/Home.tsx: a camera view with a
    guide frame, a gallery picker, and an upload to the OCR service whose
    answer is kept only when the status is exactly 201.

    Each user action is a pure function from the current screen state and
    the outcomes of the native and network calls it makes (permission,
    photo, crop, picker, HTTP) to the next state and the effects requested
    on the way. */
module Home {
  import opened Outcomes
  import Geometry
  import Filename

  /** The three `useState` slots of the screen. */
  datatype Screen = Screen(image: Option<string>, ocrResult: Option<Fields>, cameraOpen: bool)

  const Initial: Screen := Screen(None, None, false)

  /** What `takePictureAsync` resolves to: the file and its pixel size. */
  datatype Photo = Photo(uri: string, width: real, height: real)

  const CameraDenied: Effect := Alert("Permission refusée", "Vous devez autoriser l'accès à la caméra.")
  const CaptureFailed: Effect := Alert("Erreur", "La capture de la photo a échoué.")
  const GalleryDenied: Effect := Alert("Permission refusée", "Veuillez autoriser l'accès à la galerie.")
  const NoImage: Effect := Alert("Erreur", "Veuillez capturer ou sélectionner une image.")
  const UploadSucceeded: Effect := Alert("Succès", "Image envoyée avec succès")
  const UploadFailed: Effect := Alert("Erreur", "Échec de l'envoi de l'image")

  /** JPEG quality passed to the image library: no extra compression. */
  const CropQuality: real := 1.0

  /** `openCamera`: the camera view opens only with camera permission. */
  function OpenCamera(s: Screen, granted: bool): (r: Step<Screen>)
    ensures r.screen.image == s.image && r.screen.ocrResult == s.ocrResult
    ensures r.screen.cameraOpen <==> granted || s.cameraOpen
    ensures granted <==> r.effects == []
    ensures !granted ==> r.effects == [CameraDenied]
  {
    if granted then Step(s.(cameraOpen := true), [])
    else Step(s, [CameraDenied])
  }

  /** The crop request for a photo, in the photo's own pixels. */
  function CropFor(photo: Photo, renderWidth: real, windowWidth: Geometry.Width): Effect {
    Crop(photo.uri, Geometry.CropToFrame(renderWidth, windowWidth, photo.width, photo.height), CropQuality)
  }

  /** `takePhoto`. `mounted` says whether the camera ref is set; `photo` is
      what the capture resolved to (`None` for a null photo); `cropped` is
      the URI the image library produced, or `None` when it rejected, in
      which case the rejection escapes the handler and nothing changes. */
  function TakePhoto(s: Screen, mounted: bool, photo: Option<Photo>, cropped: Option<string>,
                     renderWidth: real, windowWidth: Geometry.Width): (r: Step<Screen>)
    ensures !mounted ==> r == Step(s, [])
    ensures mounted && photo.None? ==> r == Step(s, [CaptureFailed])
    ensures mounted && photo.Some? ==> r.effects == [CropFor(photo.value, renderWidth, windowWidth)]
    ensures mounted && photo.Some? && cropped.Some? ==>
              r.screen == Screen(Some(cropped.value), None, false)
    ensures r.screen != s ==> mounted && photo.Some? && cropped.Some?
  {
    if !mounted then Step(s, [])
    else match photo
      case None => Step(s, [CaptureFailed])
      case Some(p) =>
        var crop := CropFor(p, renderWidth, windowWidth);
        match cropped
        case None => Step(s, [crop])
        case Some(uri) => Step(Screen(Some(uri), None, false), [crop])
  }

  /** `pickImage`: ask for gallery permission, then open the picker. */
  function PickImage(s: Screen, granted: bool, pick: PickOutcome): (r: Step<Screen>)
    ensures r.screen.cameraOpen == s.cameraOpen
    ensures granted && pick.Picked? ==> r.screen.image == Some(pick.uri) && r.screen.ocrResult == None
    ensures !granted || pick.Cancelled? ==> r.screen == s
    ensures !granted <==> r.effects == [GalleryDenied]
    ensures granted ==> r.effects == []
  {
    if !granted then Step(s, [GalleryDenied])
    else match pick
      case Cancelled => Step(s, [])
      case Picked(uri) => Step(s.(image := Some(uri), ocrResult := None), [])
  }

  /** The multipart part uploaded for an image URI. */
  function UploadPart(uri: string): FormPart {
    FormPart(ImageField, uri, Filename.UploadFilename(uri), JpegType)
  }

  /** `uploadImage`: nothing is sent without a (non-empty) image; otherwise
      one POST is made and its body becomes the OCR result only on 201. */
  function Upload(s: Screen, outcome: HttpOutcome): (r: Step<Screen>)
    ensures r.screen.image == s.image && r.screen.cameraOpen == s.cameraOpen
    ensures !Selected(s.image) ==> r == Step(s, [NoImage]) && PostCount(r.effects) == 0
    ensures Selected(s.image) ==> PostCount(r.effects) == 1 && r.effects[0] == Post(UploadUrl, UploadPart(s.image.value))
    ensures Selected(s.image) && outcome.Returned? && outcome.status == 201 ==>
              r.screen.ocrResult == Some(outcome.data)
    ensures r.screen.ocrResult != s.ocrResult ==>
              Selected(s.image) && outcome.Returned? && outcome.status == 201
    ensures Selected(s.image) && outcome.Returned? && outcome.status == 201 ==>
              r.effects == [Post(UploadUrl, UploadPart(s.image.value)), UploadSucceeded]
    ensures Selected(s.image) && !(outcome.Returned? && outcome.status == 201) ==>
              r.effects == [Post(UploadUrl, UploadPart(s.image.value)), UploadFailed]
  {
    if !Selected(s.image) then Step(s, [NoImage])
    else
      var post := Post(UploadUrl, UploadPart(s.image.value));
      match outcome
      case Returned(status, data) =>
        if status == 201 then Step(s.(ocrResult := Some(data)), [post, UploadSucceeded])
        else Step(s, [post, UploadFailed])
      case Threw(_) => Step(s, [post, UploadFailed])
  }

  /** The uploaded file name is never empty and never contains a slash,
      whatever the image URI. */
  lemma UploadedNameIsPlain(s: Screen, outcome: HttpOutcome)
    requires Selected(s.image)
    ensures var part := Upload(s, outcome).effects[0].part;
            part.name != "" && Filename.Slash !in part.name && part.uri == s.image.value
  {
  }

  /** A user action together with the outcomes of the calls it makes. */
  datatype Action =
    | OpenCameraAction(cameraGranted: bool)
    | TakePhotoAction(mounted: bool, photo: Option<Photo>, cropped: Option<string>,
                      renderWidth: real, windowWidth: Geometry.Width)
    | PickImageAction(galleryGranted: bool, pick: PickOutcome)
    | UploadAction(outcome: HttpOutcome)

  function Apply(s: Screen, a: Action): Step<Screen> {
    match a
    case OpenCameraAction(g) => OpenCamera(s, g)
    case TakePhotoAction(m, p, c, rw, ww) => TakePhoto(s, m, p, c, rw, ww)
    case PickImageAction(g, pick) => PickImage(s, g, pick)
    case UploadAction(o) => Upload(s, o)
  }

  /** The state after a sequence of actions. */
  function Run(s: Screen, trace: seq<Action>): Screen
    decreases |trace|
  {
    if |trace| == 0 then s
    else Apply(Run(s, trace[..|trace| - 1]), trace[|trace| - 1]).screen
  }

  /** An upload the server accepted with status 201 and body `data`. */
  predicate Accepted(a: Action, data: Fields) {
    a.UploadAction? && a.outcome.Returned? && a.outcome.status == 201 && a.outcome.data == data
  }

  /** No single action pairs a new image with an old result: an action that
      changes the image clears the result, and an action that sets a result
      leaves the image alone and is an accepted upload of it. */
  lemma NoStalePairing(s: Screen, a: Action)
    ensures var n := Apply(s, a).screen;
            n.image != s.image ==> n.ocrResult == None
    ensures var n := Apply(s, a).screen;
            n.ocrResult.Some? && n.ocrResult != s.ocrResult ==>
              Accepted(a, n.ocrResult.value) && Selected(s.image) && n.image == s.image
  {
  }

  /** The image shown after the first `j` actions of `trace`. */
  function ImageAt(trace: seq<Action>, j: int): Option<string>
    requires 0 <= j <= |trace|
  {
    Run(Initial, trace[..j]).image
  }

  /** Action `k` of `trace` is an accepted upload of a non-empty image
      answered with `data`, and from it to the end of `trace` the image never
      changed. */
  ghost predicate ResultOrigin(trace: seq<Action>, k: int, data: Fields) {
    && 0 <= k < |trace|
    && Accepted(trace[k], data)
    && Selected(ImageAt(trace, k))
    && forall j :: k <= j <= |trace| ==> ImageAt(trace, j) == ImageAt(trace, |trace|)
  }

  lemma OriginAtLast(trace: seq<Action>, data: Fields)
    requires |trace| > 0
    requires Accepted(trace[|trace| - 1], data)
    requires Selected(ImageAt(trace, |trace| - 1))
    ensures ResultOrigin(trace, |trace| - 1, data)
  {
    assert trace[..|trace|] == trace;
  }

  lemma OriginExtends(trace: seq<Action>, k: int, data: Fields)
    requires |trace| > 0
    requires ResultOrigin(trace[..|trace| - 1], k, data)
    requires ImageAt(trace, |trace|) == ImageAt(trace, |trace| - 1)
    ensures ResultOrigin(trace, k, data)
  {
    var prefix := trace[..|trace| - 1];
    assert trace[k] == prefix[k];
    forall j | 0 <= j <= |prefix|
      ensures ImageAt(trace, j) == ImageAt(prefix, j)
    {
      assert trace[..j] == prefix[..j];
    }
    assert ImageAt(prefix, |prefix|) == ImageAt(trace, |trace| - 1);
  }

  /** Whenever the screen shows an OCR result, it is the body of an accepted
      upload of a non-empty image, and from that upload on the image has
      never changed. */
  lemma {:induction false} ResultBelongsToImage(trace: seq<Action>)
    ensures var s := Run(Initial, trace);
            s.ocrResult.Some? ==> exists k :: ResultOrigin(trace, k, s.ocrResult.value)
    decreases |trace|
  {
    var s := Run(Initial, trace);
    if |trace| > 0 && s.ocrResult.Some? {
      var prefix := trace[..|trace| - 1];
      var before := Run(Initial, prefix);
      assert trace[..|trace|] == trace;
      NoStalePairing(before, trace[|trace| - 1]);
      if s.ocrResult != before.ocrResult {
        OriginAtLast(trace, s.ocrResult.value);
      } else {
        ResultBelongsToImage(prefix);
        var k :| ResultOrigin(prefix, k, s.ocrResult.value);
        OriginExtends(trace, k, s.ocrResult.value);
      }
    }
  }
}

=== FILE: home_screen.dfy ===
/** The simpler upload screen of screens/HomeScreen.js: gallery or camera
    pick through the system picker, and an upload that stores whatever body
    the POST resolves with. Unlike the capture screen of screens/Home.tsx it
    never clears an earlier result, does not check the status and always
    names the upload `cin_image.jpg`. */
module HomeScreen {
  import opened Outcomes

  /** The two `useState` slots of the screen. */
  datatype Screen = Screen(selectedImage: Option<string>, extractedData: Option<Fields>)

  const Initial: Screen := Screen(None, None)

  const FixedName: string := "cin_image.jpg"
  const DefaultUploadError: string := "Une erreur est survenue lors de l'upload"
  const NoImage: Effect := Alert("Erreur", "Veuillez sélectionner ou capturer une image.")

  /** A finished pick replaces the selected image; nothing else changes. */
  function Choose(s: Screen, pick: PickOutcome): (r: Screen)
    ensures r.extractedData == s.extractedData
    ensures r.selectedImage == (if pick.Picked? then Some(pick.uri) else s.selectedImage)
  {
    match pick
    case Cancelled => s
    case Picked(uri) => s.(selectedImage := Some(uri))
  }

  /** `pickImageFromGallery`. */
  function PickFromGallery(s: Screen, pick: PickOutcome): (r: Step<Screen>)
    ensures r.effects == []
    ensures r.screen.extractedData == s.extractedData
    ensures pick.Cancelled? ==> r.screen == s
    ensures pick.Picked? ==> r.screen.selectedImage == Some(pick.uri)
  {
    Step(Choose(s, pick), [])
  }

  /** `captureImageFromCamera`: screens/HomeScreen.js repeats the gallery
      rule for the camera picker. */
  function CaptureFromCamera(s: Screen, pick: PickOutcome): (r: Step<Screen>)
    ensures r.effects == []
    ensures r.screen.extractedData == s.extractedData
    ensures pick.Cancelled? ==> r.screen == s
    ensures pick.Picked? ==> r.screen.selectedImage == Some(pick.uri)
  {
    PickFromGallery(s, pick)
  }

  /** The alert text of a failed upload: the server's `error` field when it
      is a non-empty string, the default message otherwise. */
  function ErrorMessage(errorField: Option<string>): (m: string)
    ensures m != ""
    ensures errorField.Some? && errorField.value != "" ==> m == errorField.value
    ensures errorField.None? || errorField.value == "" ==> m == DefaultUploadError
  {
    match errorField
    case Some(e) => if e != "" then e else DefaultUploadError
    case None => DefaultUploadError
  }

  /** The multipart part uploaded for an image URI. */
  function UploadPart(uri: string): (p: FormPart)
    ensures p.name == FixedName && p.mimeType == JpegType && p.uri == uri
  {
    FormPart(ImageField, uri, FixedName, JpegType)
  }

  /** `uploadImage`. */
  function Upload(s: Screen, outcome: HttpOutcome): (r: Step<Screen>)
    ensures r.screen.selectedImage == s.selectedImage
    ensures !Selected(s.selectedImage) ==> r == Step(s, [NoImage])
    ensures Selected(s.selectedImage) ==>
              PostCount(r.effects) == 1 && r.effects[0] == Post(UploadUrl, UploadPart(s.selectedImage.value))
    ensures Selected(s.selectedImage) && outcome.Returned? ==> r.screen.extractedData == Some(outcome.data)
    ensures outcome.Threw? ==> r.screen == s
    ensures Selected(s.selectedImage) && outcome.Threw? ==>
              r.effects[|r.effects| - 1] == Alert("Erreur", ErrorMessage(outcome.errorField))
    ensures Selected(s.selectedImage) && outcome.Returned? ==>
              r.effects == [Post(UploadUrl, UploadPart(s.selectedImage.value))]
    ensures Selected(s.selectedImage) && outcome.Threw? ==>
              r.effects == [Post(UploadUrl, UploadPart(s.selectedImage.value)),
                            Alert("Erreur", ErrorMessage(outcome.errorField))]
  {
    if !Selected(s.selectedImage) then Step(s, [NoImage])
    else
      var post := Post(UploadUrl, UploadPart(s.selectedImage.value));
      match outcome
      case Returned(_, data) => Step(s.(extractedData := Some(data)), [post])
      case Threw(e) => Step(s, [post, Alert("Erreur", ErrorMessage(e))])
  }

  /** The name sent to the server does not depend on the image. */
  lemma UploadNameIgnoresUri(s: Screen, t: Screen, o: HttpOutcome, p: HttpOutcome)
    requires Selected(s.selectedImage) && Selected(t.selectedImage)
    ensures Upload(s, o).effects[0].part.name == Upload(t, p).effects[0].part.name == FixedName
  {
  }

  /** An empty `error` string falls back to the default text. */
  lemma EmptyErrorFallsBack()
    ensures ErrorMessage(Some("")) == DefaultUploadError
    ensures ErrorMessage(Some("bad image")) == "bad image"
  {
  }

  /** A user action together with the outcome of the call it makes. */
  datatype Action =
    | GalleryAction(pick: PickOutcome)
    | CameraAction(pick: PickOutcome)
    | UploadAction(outcome: HttpOutcome)

  function Apply(s: Screen, a: Action): Step<Screen> {
    match a
    case GalleryAction(pick) => PickFromGallery(s, pick)
    case CameraAction(pick) => CaptureFromCamera(s, pick)
    case UploadAction(o) => Upload(s, o)
  }

  /** The state after a sequence of actions. */
  function Run(s: Screen, trace: seq<Action>): Screen
    decreases |trace|
  {
    if |trace| == 0 then s
    else Apply(Run(s, trace[..|trace| - 1]), trace[|trace| - 1]).screen
  }

  /** An upload that resolved, whatever its status, with body `data`. */
  predicate Resolved(a: Action, data: Fields) {
    a.UploadAction? && a.outcome.Returned? && a.outcome.data == data
  }

  /** Whatever data the screen shows is the body of some upload that was
      posted (a non-empty image was selected) and resolved, with any status;
      the image may have changed since. */
  lemma {:induction false} DataComesFromUpload(trace: seq<Action>)
    ensures var s := Run(Initial, trace);
            s.extractedData.Some? ==>
              exists k :: 0 <= k < |trace| && Resolved(trace[k], s.extractedData.value)
                && Selected(Run(Initial, trace[..k]).selectedImage)
    decreases |trace|
  {
    var s := Run(Initial, trace);
    if |trace| > 0 && s.extractedData.Some? {
      var prefix := trace[..|trace| - 1];
      var before := Run(Initial, prefix);
      var a := trace[|trace| - 1];
      if s.extractedData != before.extractedData {
        assert Resolved(trace[|trace| - 1], s.extractedData.value);
        assert Selected(Run(Initial, trace[..|trace| - 1]).selectedImage);
      } else {
        DataComesFromUpload(prefix);
        var k :| 0 <= k < |prefix| && Resolved(prefix[k], s.extractedData.value)
                 && Selected(Run(Initial, prefix[..k]).selectedImage);
        assert trace[k] == prefix[k];
        assert trace[..k] == prefix[..k];
      }
    }
  }

  /** A new pick keeps the data of the previous image: pick `a.jpg`, upload
      it with status 200, pick `b.jpg`, and the screen shows `b.jpg` next to
      the data extracted from `a.jpg`. */
  lemma StaleDataAfterNewPick(data: Fields)
    ensures var s := Run(Initial, [GalleryAction(Picked("a.jpg")), UploadAction(Returned(200, data)),
                                  GalleryAction(Picked("b.jpg"))]);
            s == Screen(Some("b.jpg"), Some(data))
  {
    var t := [GalleryAction(Picked("a.jpg")), UploadAction(Returned(200, data)), GalleryAction(Picked("b.jpg"))];
    assert t[..2][..1] == t[..1] && t[..1][..0] == [] && t[..3] == t;
    assert Run(Initial, t[..1][..0]) == Initial;
    assert t[..1][0] == t[0];
    var s1 := Run(Initial, t[..1]);
    assert s1 == Apply(Initial, t[0]).screen;
    assert s1 == Screen(Some("a.jpg"), None);
    assert t[..2][1] == t[1];
    var s2 := Run(Initial, t[..2]);
    assert s2 == Screen(Some("a.jpg"), Some(data));
    assert Run(Initial, t) == Apply(s2, t[2]).screen;
  }
}

=== FILE: outcomes.dfy ===
/** Values shared by both capture screens: optional slots, the outcomes that
    the native and network layers hand back, and the effects a transition
    asks the platform to perform (alerts, a crop, a multipart POST). */
module Outcomes {
  import Geometry

  /** A React state slot that may hold `null`. */
  datatype Option<+T> = None | Some(value: T)

  /** The field/value mapping the OCR service returns (`ddn`, `nom`, ...). */
  type Fields = map<string, string>

  /** JavaScript truthiness of a `string | null` slot: `null` and `""` are falsy. */
  predicate Selected(image: Option<string>) {
    image.Some? && image.value != ""
  }

  /** What the gallery picker or the camera picker hands back. */
  datatype PickOutcome = Cancelled | Picked(uri: string)

  /** What `axios.post` does: it resolves with a status and a body, or it
      rejects; a rejection may carry a server body whose `error` field is
      read as an optional string. */
  datatype HttpOutcome =
    | Returned(status: int, data: Fields)
    | Threw(errorField: Option<string>)

  /** One part of a multipart form: the form field name, the local file URI,
      the file name announced to the server and its content type. */
  datatype FormPart = FormPart(field: string, uri: string, name: string, mimeType: string)

  /** A request the screen hands to the platform, in the order it is made. */
  datatype Effect =
    | Alert(title: string, message: string)
    | Crop(sourceUri: string, rect: Geometry.CropRect, compress: real)
    | Post(url: string, part: FormPart)

  /** The next screen state together with the effects that led to it. */
  datatype Step<S> = Step(screen: S, effects: seq<Effect>)

  const UploadUrl: string := "http://192.168.1.102:5000/upload_cin"
  const ImageField: string := "image"
  const JpegType: string := "image/jpeg"

  /** The number of POST requests among a step's effects. */
  function PostCount(effects: seq<Effect>): (n: nat)
    ensures n <= |effects|
    ensures n == 0 <==> forall i :: 0 <= i < |effects| ==> !effects[i].Post?
  {
    if |effects| == 0 then 0
    else (if effects[0].Post? then 1 else 0) + PostCount(effects[1..])
  }
}
